=== FILE: README.md ===
# PryntTrimmerView in Dafny

A model of the arithmetic and state inside `TrimmerView`, the video-trimming
control of PryntTrimmerView: two handles that select a sub-range of a
filmstrip, a position bar synchronised with a player, and two time labels
shown while a handle is dragged.

The model has six modules:

- `Wrappers`: the `Option` type standing for Swift optionals.
- `SwiftInt`: Swift's truncating `Int` division and remainder, and `round`
  (halves away from zero) followed by `Int(...)`.
- `Decimal`: the text of an `Int` as Swift prints it, and an independent
  reader of digit strings.
- `TimeLabel`: `secondsToHoursMinutesSeconds` and the label text built by
  `updateHandleLabel`, checked against an independent reader of `h:m:s`
  clock texts.
- `Handles`: the clamping of the left and right constraint constants in
  `updateLeftConstraint` and `updateRightConstraint`, the minimum distance
  between the handles, and the clamping in `seek(to:)`. Values in points
  are `real`.
- `Trimmer`: the view's state and how `handlePanGesture` and
  `resetHandleViewPosition` change it. It also proves invariants over every
  sequence of events.

Frame values come from the constraint constants, as they are after a layout
pass. The left handle's x is the left constant. The right handle's x is the
view width plus the right constant minus the handle width of 15 points.
The surroundings of the view are an `Environment`: the view width, the
filmstrip's scroll offset and content width, the bar width, the asset,
`minDuration`, the filmstrip's pixel-to-time (`getTime(from:)`) and
time-to-pixel (`getPosition(from:)`) conversions, and whether a delegate is
set. The two conversions are given functions.

Reading the `startTime` or `endTime` property refreshes the matching label
when the time is defined. The pan handler reads them while choosing what to
seek, and again as the arguments of
`delegate?.didChangeHandleBarPosition(StartTime: startTime!, EndTime: endTime!)`.
Optional chaining evaluates those arguments, with their label refreshes and
force-unwraps, only when a delegate is set, and the model follows that.

Some labels and guards are not what one might expect:

- The label for 0 seconds is `0:00`, not `00:00`. Minutes get a `0` prefix
  only when they are 1 to 9.
- The label for 3600 seconds is `1:0:00`, not `1:00:00`.
- The code has no zero-duration guard in `minimumDistanceBetweenHandle`.
  It tests only for a missing asset.
- `seek(to:)` puts no zero floor under the bar's largest offset. When the
  bar does not fit between the handles, the offset is negative
  (`SeekPosition`).
- The hours part is hidden when the *unrounded* time is under 3600. So a
  time from 3599.5 up to 3600 seconds rounds to a full hour but is shown as
  `0:00` (`NearHourShowsZero`).

## Model

| member | source | states |
|---|---|---|
| SwiftInt.Div | PryntTrimmerView/Classes/Trimmer/PryntTrimmerView.swift:258-269 | Integer division truncates toward zero: quotient times divisor is within one divisor of the dividend, on the dividend's side of zero |
| SwiftInt.Rem | PryntTrimmerView/Classes/Trimmer/PryntTrimmerView.swift:258-269 | The remainder completes the truncating division and takes the dividend's sign |
| SwiftInt.Round | PryntTrimmerView/Classes/Trimmer/PryntTrimmerView.swift:255-256 | The rounded count is within half a second of the time, halves going away from zero; it is non-negative exactly when the time is above -0.5 |
| Decimal.Digits | PryntTrimmerView/Classes/Trimmer/PryntTrimmerView.swift:258-269 | A number prints as a non-empty digit string with no leading zero, one digit below 10 and two digits from 10 to 99 |
| Decimal.IntString | PryntTrimmerView/Classes/Trimmer/PryntTrimmerView.swift:258 | A non-negative `Int` prints as digits that read back as the number; a negative one as a minus sign followed by digits that read back as its magnitude; the digits never start with `0` unless the number is 0 |
| Decimal.ParseDigitsOfDigits | PryntTrimmerView/Classes/Trimmer/PryntTrimmerView.swift:258 | Reading back the printed number gives the number |
| Decimal.LeadingZero | PryntTrimmerView/Classes/Trimmer/PryntTrimmerView.swift:260-268 | The `0` prefix added to minutes and seconds does not change the value they read as |
| TimeLabel.FieldsRoundTrip | PryntTrimmerView/Classes/Trimmer/PryntTrimmerView.swift:254-272 | For a non-negative rounded count the three fields are digit strings reading as hours, minutes below 60 and seconds below 60 that add up to the count; seconds have two digits; minutes have two digits, or are the single `0` exactly when the count modulo an hour is under a minute |
| TimeLabel.HoursUnpadded | PryntTrimmerView/Classes/Trimmer/PryntTrimmerView.swift:257 | The hours text starts with `0` exactly when the rounded count is under an hour, so it is never padded |
| TimeLabel.LabelReadsBack | PryntTrimmerView/Classes/Trimmer/PryntTrimmerView.swift:227-272 | A label read as a base-sixty clock gives the rounded time when the unrounded time is at least 3600, and the rounded time modulo 3600 otherwise |
| TimeLabel.LabelRoundTrip | PryntTrimmerView/Classes/Trimmer/PryntTrimmerView.swift:227-272 | For every non-negative time outside [3599.5, 3600) the label reads back as the rounded time |
| TimeLabel.NearHourShowsZero | PryntTrimmerView/Classes/Trimmer/PryntTrimmerView.swift:229-236 | A time from 3599.5 up to 3600 seconds is labelled `0:00` |
| TimeLabel.LabelShape | PryntTrimmerView/Classes/Trimmer/PryntTrimmerView.swift:232-236 | The label has two colons (`h:m:s`) when the unrounded time is at least 3600 and one (`m:s`) otherwise |
| TimeLabel.ShortLabelExamples | PryntTrimmerView/Classes/Trimmer/PryntTrimmerView.swift:254-272 | 0, 61 and 600 seconds are labelled `0:00`, `01:01` and `10:00` |
| TimeLabel.HourLabelExamples | PryntTrimmerView/Classes/Trimmer/PryntTrimmerView.swift:227-272 | 3600 and 3661 seconds are labelled `1:0:00` and `1:01:01` |
| Handles.MinimumDistance | PryntTrimmerView/Classes/Trimmer/PryntTrimmerView.swift:437-440 | Without an asset the gap is 0; with one, the gap times the duration equals `minDuration` times the content width, so the gap is `minDuration` seconds at the filmstrip's scale; it is non-negative for non-negative inputs |
| Handles.FiveSecondsPerPointScenario | PryntTrimmerView/Classes/Trimmer/PryntTrimmerView.swift:358-362 | A 120 s asset on a 600-point filmstrip with a 10 s minimum has a 50-point gap, and the left handle stays 65 points short of the right handle |
| Handles.LeftLimit | PryntTrimmerView/Classes/Trimmer/PryntTrimmerView.swift:359 | The left bound is never negative; it is the right handle's x less a handle width and the gap, or zero when that is smaller |
| Handles.UpdateLeftConstraint | PryntTrimmerView/Classes/Trimmer/PryntTrimmerView.swift:358-362 | The new left constant lies in [0, left bound]; it is baseline plus translation when that lies in the interval, and saturates at the nearer end otherwise |
| Handles.LeftIsNearest | PryntTrimmerView/Classes/Trimmer/PryntTrimmerView.swift:358-362 | The new left constant is no farther from the requested value than any other allowed constant |
| Handles.LeftMonotone | PryntTrimmerView/Classes/Trimmer/PryntTrimmerView.swift:358-362 | A larger translation never gives a smaller left constant |
| Handles.LeftSettled | PryntTrimmerView/Classes/Trimmer/PryntTrimmerView.swift:358-362 | A zero-point drag from a clamped constant leaves it unchanged |
| Handles.LeftKeepsGap | PryntTrimmerView/Classes/Trimmer/PryntTrimmerView.swift:358-362 | When there is room, the left handle ends at least a handle width plus the gap left of the right handle |
| Handles.RightLimit | PryntTrimmerView/Classes/Trimmer/PryntTrimmerView.swift:365 | The right bound is never positive; it is the constant putting the right handle a handle width plus the gap right of the left handle, or zero when that is larger |
| Handles.UpdateRightConstraint | PryntTrimmerView/Classes/Trimmer/PryntTrimmerView.swift:364-368 | The new right constant lies in [right bound, 0]; it is baseline plus translation when that lies in the interval, and saturates at the nearer end otherwise |
| Handles.RightMirrorsLeft | PryntTrimmerView/Classes/Trimmer/PryntTrimmerView.swift:358-368 | The right clamp equals the left clamp applied to negated constants, measured from the view's right edge |
| Handles.RightMonotone | PryntTrimmerView/Classes/Trimmer/PryntTrimmerView.swift:364-368 | A larger translation never gives a smaller right constant |
| Handles.RightKeepsGap | PryntTrimmerView/Classes/Trimmer/PryntTrimmerView.swift:364-368 | When there is room, the right handle ends at least a handle width plus the gap right of the left handle |
| Handles.SeekPosition | PryntTrimmerView/Classes/Trimmer/PryntTrimmerView.swift:391-401 | The bar's offset never exceeds the largest offset; it is non-negative exactly when the largest offset is; it is the requested offset whenever that lies in range, 0 when the request is below a non-negative range, and the largest offset when the request is above it or the largest offset is negative |
| Handles.SeekStaysBetweenHandles | PryntTrimmerView/Classes/Trimmer/PryntTrimmerView.swift:391-401 | When the bar fits between the handles, its left edge is at or right of the left handle's right edge and its right edge at or left of the right handle |
| Handles.SeekTracksFilmstrip | PryntTrimmerView/Classes/Trimmer/PryntTrimmerView.swift:391-401 | When the requested filmstrip point lies between the handles, the bar is drawn exactly over it |
| Trimmer.Seek | PryntTrimmerView/Classes/Trimmer/PryntTrimmerView.swift:391-401 | Seeking changes only the position constant; a time without a position changes nothing; otherwise the constant is the normalised offset of that position from the left handle, which lies between the handles when the bar fits |
| Trimmer.Step | PryntTrimmerView/Classes/Trimmer/PryntTrimmerView.swift:313-386 | Every pan event and reset keeps the left constant and its baseline non-negative and the right constant and its baseline non-positive |
| Trimmer.ResetOnlyZeroesConstants | PryntTrimmerView/Classes/Trimmer/PryntTrimmerView.swift:382-386 | Reset sets both constants to zero, changes nothing else, and a second reset changes nothing |
| Trimmer.BeganCapturesBaseline | PryntTrimmerView/Classes/Trimmer/PryntTrimmerView.swift:319-330 | A beginning pan copies only its handle's constant into that handle's baseline and shows only that handle's label and line |
| Trimmer.ChangedMovesOneHandle | PryntTrimmerView/Classes/Trimmer/PryntTrimmerView.swift:331-345 | A changing pan moves only its handle's constant, to the clamped baseline plus translation; baselines and visibility stay; the bar is sought to the start time on a left pan that has one, else to the end time when defined, else stays; with a delegate both labels take the new start and end times; without one the left label takes the start time when defined, and the right label the end time only when it was read (not on a left pan with a start time) and is defined |
| Trimmer.ReadStart | PryntTrimmerView/Classes/Trimmer/PryntTrimmerView.swift:404-410 | Reading `startTime` sets the left label to the start time when it is defined, leaves it when it is not, and changes nothing else |
| Trimmer.ReadEnd | PryntTrimmerView/Classes/Trimmer/PryntTrimmerView.swift:413-419 | Reading `endTime` sets the right label to the end time when it is defined, leaves it when it is not, and changes nothing else |
| Trimmer.Notify | PryntTrimmerView/Classes/Trimmer/PryntTrimmerView.swift:345 | The optional-chained delegate call changes only the labels; with a delegate each label takes its time when that is defined (both when both are); without a delegate it changes nothing |
| Trimmer.Change | PryntTrimmerView/Classes/Trimmer/PryntTrimmerView.swift:331-345 | A changing pan ends, apart from the bar and the labels, in the dragged state: only the panned handle's constant moved, to the clamp of `updateLeftConstraint` or `updateRightConstraint` |
| Trimmer.Follow | PryntTrimmerView/Classes/Trimmer/PryntTrimmerView.swift:337-345 | After the handle moves, only the bar and labels change; the bar is sought to the start time on a left pan that has one, else to the end time when defined, else stays; the left label takes the start time when defined; the right label takes the end time when defined, with a delegate always and without one only when the end time was read |
| Trimmer.Finish | PryntTrimmerView/Classes/Trimmer/PryntTrimmerView.swift:346-352 | A finishing pan hides the four label views and changes nothing else but the labels; with a delegate and both times defined the labels take them; without a delegate they stay |
| Trimmer.FollowForgetsBarAndLabels | PryntTrimmerView/Classes/Trimmer/PryntTrimmerView.swift:337-345 | What a changing pan does after moving the handle depends on the handles only: the bar and labels it starts from survive at most in the bar and labels, and with a delegate and defined times only in the bar |
| Trimmer.FinishedHidesLabels | PryntTrimmerView/Classes/Trimmer/PryntTrimmerView.swift:346-352 | An ended, cancelled or failed pan hides all four label views and moves nothing; with a delegate the labels show the current start and end times, without one they keep their texts |
| Trimmer.DragIsAbsolute | PryntTrimmerView/Classes/Trimmer/PryntTrimmerView.swift:331-368 | After two changes of one pan the state is what the second change alone gives, except possibly the bar and the labels; the bar agrees whenever the time the second change seeks is defined and has a position; the left label agrees whenever the start time is defined; the right label agrees whenever the end time is defined and read (always with a delegate; without one, unless a left pan seeks its start time); with a delegate the labels agree; the second change is defined whenever it is defined on its own |
| Trimmer.SeekIdempotent | PryntTrimmerView/Classes/Trimmer/PryntTrimmerView.swift:391-401 | Seeking the same time twice gives the same state as seeking it once |
| Trimmer.StepKeepsSeparation | PryntTrimmerView/Classes/Trimmer/PryntTrimmerView.swift:313-386 | In a view wide enough for two handles and the gap, every event keeps the handles at least a handle width plus the gap apart |
| Trimmer.RunStaysBounded | PryntTrimmerView/Classes/Trimmer/PryntTrimmerView.swift:313-386 | Every sequence of events from a bounded state ends in a bounded state |
| Trimmer.RunStaysSeparated | PryntTrimmerView/Classes/Trimmer/PryntTrimmerView.swift:313-386 | Every sequence of events from a bounded, separated state in a roomy view ends bounded and separated |
| Trimmer.InitialIsBoundedAndSeparated | PryntTrimmerView/Classes/Trimmer/PryntTrimmerView.swift:71-72 | The initial all-zero state satisfies both invariants in a roomy view |
| Trimmer.SeparatedSelectsMinDuration | PryntTrimmerView/Classes/Trimmer/PryntTrimmerView.swift:403-440 | With times linear in filmstrip position, separated handles select at least `minDuration` seconds |

## Left out

- View construction, Auto Layout anchors, colours, corner radii and label fonts (PryntTrimmerView.swift:84-225 and :275-309, apart from the label formatting at :227-272). They are UIKit configuration. The layout facts used are the two frame relations above, the filmstrip's inset of one handle width (:103), and the position bar's left edge being anchored to the left handle's right edge plus the position constant (:288).
- Layout passes (`layoutIfNeeded`) are not modelled. Frames are derived from the constants, as they stand once layout has run.
- What the delegate does with its notifications (`didChangePositionBar`, `positionBarStoppedMoving`, `didChangeHandleBarPosition`, `positionBarStartedMoving`), and `updateSelectedTime`/`positionBarTime`. The listener is outside the view. The only effect of a notification on the view is the label refresh caused by evaluating the arguments of `didChangeHandleBarPosition`, and that refresh is modelled.
- The scroll-view callbacks and the deferred 0.2-second bar snap in `scrollViewDidScroll`. This is timed work on the UI thread. The scroll offset is a field of the environment.
- The inside of `getTime(from:)`, `getPosition(from:)` and the asset preview. They belong to `AVAssetTimeSelector`, which is not part of this model. They are given functions of the environment.
- `resetTrimmerView` also resets the filmstrip's scroll position. That is a change of the environment. An asset change also changes the environment (asset, content width). Both go through the same `ResetHandles` event.
- Floating point is not modelled. `CGFloat` and `Double` are `real`, with no NaN, infinities or rounding error. `Int(round(x))` is exact, with no trap on huge values.
- MinimumDistance: requires a positive duration for a loaded asset. The code divides by the duration without a guard, and a zero-duration asset would give an infinite or NaN gap.
- Step: when a delegate is set, requires the start and end times to be defined after a changing pan and at the end of a pan. The handler force-unwraps them as the notification's arguments, and a trap is not modelled. Without a delegate nothing is unwrapped and every pan is modelled, including a left pan without a start time, which seeks the end time.
- Step: the handler's early return when the gesture has no view or superview is not modelled. A recognizer attached to a handle always has both.
- The label texts are kept in the state as the times they show. `LeftLabelText` and `RightLabelText` give the text, `LabelText` of that time.
- Negative times are formatted the way the code computes them (truncating division, `-` sign), but no property is stated for them.
- Run: a run applies all events in one environment. Scrolling or resizing between events of a run is not modelled, although each `Step` accepts any environment.
- The position bar's frame width (2 at creation, 3 by its width constraint) is the environment's `barWidth`.
- The default `minDuration` of 1 second is not fixed. `minDuration` is a field of the environment.

=== FILE: decimal.dfy ===
/**
 * Decimal text of integers: Swift's `String(n)` / string interpolation of an
 * `Int`, and an independent reader of digit strings used to state round trips.
 */
module Decimal {

  import opened Wrappers

  predicate IsDigit(c: char) {
    '0' <= c <= '9'
  }

  /** A non-empty string of decimal digits. */
  predicate IsDigits(s: string) {
    |s| > 0 && forall i :: 0 <= i < |s| ==> IsDigit(s[i])
  }

  function DigitChar(d: nat): (c: char)
    requires d < 10
    ensures IsDigit(c)
  {
    ['0', '1', '2', '3', '4', '5', '6', '7', '8', '9'][d]
  }

  function DigitValue(c: char): (d: nat)
    requires IsDigit(c)
    ensures d < 10
  {
    (c as int) - ('0' as int)
  }

  lemma DigitValueOfChar(d: nat)
    requires d < 10
    ensures DigitValue(DigitChar(d)) == d
  {
  }

  /** The shortest decimal spelling of a natural number: no leading zero. */
  function Digits(n: nat): (s: string)
    ensures IsDigits(s)
    ensures s[0] == '0' ==> n == 0
    ensures n < 10 <==> |s| == 1
    ensures 10 <= n < 100 ==> |s| == 2
    decreases n
  {
    if n < 10 then [DigitChar(n)] else Digits(n / 10) + [DigitChar(n % 10)]
  }

  /** Swift's `String(n)` for an `Int`: a minus sign before the magnitude when negative. */
  function IntString(n: int): (s: string)
    ensures n >= 0 ==> IsDigits(s)
    ensures n < 0 ==> |s| >= 2 && s[0] == '-' && IsDigits(s[1..])
    ensures n >= 0 ==> ParseDigits(s) == Some(n)
    ensures n < 0 ==> ParseDigits(s[1..]) == Some(-n)
    ensures n >= 0 ==> |s| == 1 || s[0] != '0'
    ensures n < 0 ==> s[1] != '0'
  {
    if n >= 0 then
      ParseDigitsOfDigits(n);
      Digits(n)
    else
      ParseDigitsOfDigits(-n);
      var s := "-" + Digits(-n);
      assert s[1..] == Digits(-n);
      s
  }

  /** Reads a non-empty digit string (leading zeros allowed); anything else is `None`. */
  function ParseDigits(s: string): (r: Option<nat>)
    ensures r.Some? <==> IsDigits(s)
    decreases |s|
  {
    if |s| == 0 || !IsDigit(s[|s| - 1]) then None
    else if |s| == 1 then Some(DigitValue(s[0]))
    else match ParseDigits(s[..|s| - 1])
      case None => None
      case Some(v) => Some(10 * v + DigitValue(s[|s| - 1]))
  }

  /** Reading back the decimal spelling of a number gives the number. */
  lemma {:induction false} ParseDigitsOfDigits(n: nat)
    ensures ParseDigits(Digits(n)) == Some(n)
    decreases n
  {
    var s := Digits(n);
    if n < 10 {
      DigitValueOfChar(n);
    } else {
      ParseDigitsOfDigits(n / 10);
      assert s[..|s| - 1] == Digits(n / 10);
      DigitValueOfChar(n % 10);
    }
  }

  /** A leading zero does not change the value read. */
  lemma {:induction false} LeadingZero(s: string)
    requires IsDigits(s)
    ensures ParseDigits("0" + s) == ParseDigits(s)
    decreases |s|
  {
    var z := "0" + s;
    if |s| == 1 {
      assert z[..|z| - 1] == "0";
    } else {
      assert z[..|z| - 1] == "0" + s[..|s| - 1];
      LeadingZero(s[..|s| - 1]);
    }
  }

  /** A digit string never contains the separator used by clock texts. */
  lemma DigitsHaveNoColon(s: string)
    requires IsDigits(s)
    ensures ':' !in s
  {
  }

}

=== FILE: handles.dfy ===
/**
 * The geometry of the trimmer's two handles and its position bar, in points.
 *
 * The left handle's x is the left constraint's constant; the right handle's x
 * is the view width plus the right constraint's constant minus the handle
 * width. A drag adds the gesture's cumulative translation to the constant
 * captured when the drag began and clamps the sum so that the handles stay
 * inside the view and, when the view has room for both handles and the gap,
 * at least the minimum gap apart.
 */
module Handles {

  import opened Wrappers

  /** `handleWidth`: the width of each handle view. */
  const HandleWidth: real := 15.0

  /** A loaded media asset; only its duration in seconds matters here. */
  datatype Asset = Asset(duration: real)

  function Min(a: real, b: real): real {
    if a <= b then a else b
  }

  function Max(a: real, b: real): real {
    if a >= b then a else b
  }

  function Abs(a: real): real {
    if a >= 0.0 then a else -a
  }

  /**
   * `minimumDistanceBetweenHandle`: `minDuration` seconds converted to points
   * of the filmstrip, whose content width spans the asset's whole duration;
   * zero while no asset is loaded.
   */
  function MinimumDistance(asset: Option<Asset>, minDuration: real, contentWidth: real): (d: real)
    requires asset.Some? ==> asset.value.duration > 0.0
    ensures asset.None? ==> d == 0.0
    ensures asset.Some? ==> d * asset.value.duration == minDuration * contentWidth
    ensures minDuration >= 0.0 && contentWidth >= 0.0 ==> d >= 0.0
  {
    match asset
    case None => 0.0
    case Some(a) => minDuration * contentWidth / a.duration
  }

  /**
   * A 120-second asset on a 600-point filmstrip with a 10-second minimum:
   * the gap is 50 points, so the left handle stops 65 points short of the
   * right one.
   */
  lemma FiveSecondsPerPointScenario(baseline: real, translation: real, rightHandleX: real)
    requires rightHandleX >= 65.0
    ensures MinimumDistance(Some(Asset(120.0)), 10.0, 600.0) == 50.0
    ensures UpdateLeftConstraint(baseline, translation, rightHandleX, 50.0) <= rightHandleX - 65.0
  {
  }

  // ---------------------------------------------------------------------------
  // Left handle

  /**
   * The largest constant the left handle may take: the right handle's x less
   * one handle width and the minimum gap, floored at zero.
   */
  function LeftLimit(rightHandleX: real, minGap: real): (m: real)
    ensures m >= 0.0
    ensures m >= rightHandleX - HandleWidth - minGap
    ensures m == 0.0 || m == rightHandleX - HandleWidth - minGap
  {
    Max(rightHandleX - HandleWidth - minGap, 0.0)
  }

  /** `updateLeftConstraint`: the new left constant for a drag of `translation` points. */
  function UpdateLeftConstraint(baseline: real, translation: real, rightHandleX: real, minGap: real): (c: real)
    ensures 0.0 <= c <= LeftLimit(rightHandleX, minGap)
    ensures 0.0 <= baseline + translation <= LeftLimit(rightHandleX, minGap) ==> c == baseline + translation
    ensures baseline + translation < 0.0 ==> c == 0.0
    ensures baseline + translation > LeftLimit(rightHandleX, minGap) ==> c == LeftLimit(rightHandleX, minGap)
  {
    Min(Max(0.0, baseline + translation), LeftLimit(rightHandleX, minGap))
  }

  /** The clamped constant is the point of the allowed interval nearest to the requested one. */
  lemma LeftIsNearest(baseline: real, translation: real, rightHandleX: real, minGap: real, y: real)
    requires 0.0 <= y <= LeftLimit(rightHandleX, minGap)
    ensures Abs(UpdateLeftConstraint(baseline, translation, rightHandleX, minGap) - (baseline + translation))
            <= Abs(y - (baseline + translation))
  {
  }

  /** Dragging further right never moves the left handle further left. */
  lemma LeftMonotone(baseline: real, t1: real, t2: real, rightHandleX: real, minGap: real)
    requires t1 <= t2
    ensures UpdateLeftConstraint(baseline, t1, rightHandleX, minGap)
            <= UpdateLeftConstraint(baseline, t2, rightHandleX, minGap)
  {
  }

  /** A constant the clamp produced is left where it is by a drag of zero points. */
  lemma LeftSettled(baseline: real, translation: real, rightHandleX: real, minGap: real)
    ensures var c := UpdateLeftConstraint(baseline, translation, rightHandleX, minGap);
      UpdateLeftConstraint(c, 0.0, rightHandleX, minGap) == c
  {
  }

  /**
   * When there is room for it, the left handle stops a handle width plus the
   * minimum gap short of the right handle.
   */
  lemma LeftKeepsGap(baseline: real, translation: real, rightHandleX: real, minGap: real)
    requires rightHandleX - HandleWidth - minGap >= 0.0
    ensures UpdateLeftConstraint(baseline, translation, rightHandleX, minGap) + HandleWidth + minGap <= rightHandleX
  {
  }

  // ---------------------------------------------------------------------------
  // Right handle

  /**
   * The smallest constant the right handle may take: the one that puts it a
   * handle width plus the minimum gap right of the left handle, capped at zero.
   */
  function RightLimit(width: real, leftHandleX: real, minGap: real): (m: real)
    ensures m <= 0.0
    ensures m <= 2.0 * HandleWidth - width + leftHandleX + minGap
    ensures m == 0.0 || m == 2.0 * HandleWidth - width + leftHandleX + minGap
  {
    Min(2.0 * HandleWidth - width + leftHandleX + minGap, 0.0)
  }

  /** `updateRightConstraint`: the new right constant for a drag of `translation` points. */
  function UpdateRightConstraint(baseline: real, translation: real, width: real, leftHandleX: real, minGap: real): (c: real)
    ensures RightLimit(width, leftHandleX, minGap) <= c <= 0.0
    ensures RightLimit(width, leftHandleX, minGap) <= baseline + translation <= 0.0 ==> c == baseline + translation
    ensures baseline + translation > 0.0 ==> c == 0.0
    ensures baseline + translation < RightLimit(width, leftHandleX, minGap) ==> c == RightLimit(width, leftHandleX, minGap)
  {
    Max(Min(0.0, baseline + translation), RightLimit(width, leftHandleX, minGap))
  }

  /** The x of the right handle's left edge for a given right constant. */
  function RightHandleX(width: real, rightConstant: real): real {
    width + rightConstant - HandleWidth
  }

  /**
   * The right clamp is the left clamp seen in a mirror: negate the constants
   * and measure from the right edge of the view.
   */
  lemma RightMirrorsLeft(baseline: real, translation: real, width: real, leftHandleX: real, minGap: real)
    ensures UpdateRightConstraint(baseline, translation, width, leftHandleX, minGap)
            == -UpdateLeftConstraint(-baseline, -translation, width - leftHandleX - HandleWidth, minGap)
  {
  }

  /** Dragging further right never moves the right handle further left. */
  lemma RightMonotone(baseline: real, t1: real, t2: real, width: real, leftHandleX: real, minGap: real)
    requires t1 <= t2
    ensures UpdateRightConstraint(baseline, t1, width, leftHandleX, minGap)
            <= UpdateRightConstraint(baseline, t2, width, leftHandleX, minGap)
  {
  }

  /**
   * When there is room for it, the right handle stops a handle width plus the
   * minimum gap right of the left handle.
   */
  lemma RightKeepsGap(baseline: real, translation: real, width: real, leftHandleX: real, minGap: real)
    requires 2.0 * HandleWidth - width + leftHandleX + minGap <= 0.0
    ensures leftHandleX + HandleWidth + minGap
            <= RightHandleX(width, UpdateRightConstraint(baseline, translation, width, leftHandleX, minGap))
  {
  }

  // ---------------------------------------------------------------------------
  // Position bar

  /**
   * The largest offset of the position bar from the left handle's right edge:
   * the space between the handles less the bar's own width. It is negative
   * when the bar does not fit between the handles.
   */
  function MaxPosition(leftHandleX: real, rightHandleX: real, barWidth: real): real {
    rightHandleX - (leftHandleX + HandleWidth) - barWidth
  }

  /**
   * The position constant `seek(to:)` applies for a filmstrip position
   * `newPosition`: its offset from the left handle, at least zero and at most
   * `MaxPosition`, the upper bound taking precedence.
   */
  function SeekPosition(newPosition: real, contentOffset: real, leftHandleX: real, rightHandleX: real, barWidth: real): (p: real)
    ensures p <= MaxPosition(leftHandleX, rightHandleX, barWidth)
    ensures p >= 0.0 <==> MaxPosition(leftHandleX, rightHandleX, barWidth) >= 0.0
    ensures 0.0 <= newPosition - contentOffset - leftHandleX <= MaxPosition(leftHandleX, rightHandleX, barWidth)
            ==> p == newPosition - contentOffset - leftHandleX
    ensures newPosition - contentOffset - leftHandleX < 0.0 <= MaxPosition(leftHandleX, rightHandleX, barWidth) ==> p == 0.0
    ensures MaxPosition(leftHandleX, rightHandleX, barWidth) < 0.0
            || newPosition - contentOffset - leftHandleX > MaxPosition(leftHandleX, rightHandleX, barWidth)
            ==> p == MaxPosition(leftHandleX, rightHandleX, barWidth)
  {
    var offsetPosition := newPosition - contentOffset - leftHandleX;
    Min(Max(0.0, offsetPosition), MaxPosition(leftHandleX, rightHandleX, barWidth))
  }

  /**
   * Whenever the bar fits between the handles it is drawn between them: its
   * left edge (the left handle's right edge plus the constant) is at or right
   * of the left handle, and its right edge at or left of the right handle.
   */
  lemma SeekStaysBetweenHandles(newPosition: real, contentOffset: real, leftHandleX: real, rightHandleX: real, barWidth: real)
    requires MaxPosition(leftHandleX, rightHandleX, barWidth) >= 0.0
    ensures var barX := leftHandleX + HandleWidth + SeekPosition(newPosition, contentOffset, leftHandleX, rightHandleX, barWidth);
      leftHandleX + HandleWidth <= barX && barX + barWidth <= rightHandleX
  {
  }

  /**
   * The filmstrip starts one handle width into the view and is scrolled by
   * `contentOffset`; when the requested point of it lies between the handles,
   * the bar is drawn exactly over it.
   */
  lemma SeekTracksFilmstrip(newPosition: real, contentOffset: real, leftHandleX: real, rightHandleX: real, barWidth: real)
    requires leftHandleX + HandleWidth <= newPosition - contentOffset + HandleWidth
    requires newPosition - contentOffset + HandleWidth + barWidth <= rightHandleX
    ensures leftHandleX + HandleWidth + SeekPosition(newPosition, contentOffset, leftHandleX, rightHandleX, barWidth)
            == newPosition - contentOffset + HandleWidth
  {
  }

}

=== FILE: swift_int.dfy ===
/**
 * The integer arithmetic of Swift that the time formatter relies on:
 * `Int` division and remainder truncate toward zero (Dafny's `/` and `%`
 * are Euclidean), and `round` on a `Double` rounds halves away from zero.
 * Integers are unbounded here; the 64-bit range of `Int` is not modelled.
 */
module SwiftInt {

  /** Swift's `a / b` on `Int`, for a positive divisor. */
  function Div(a: int, b: int): (q: int)
    requires b > 0
    ensures a >= 0 ==> 0 <= q * b <= a < q * b + b
    ensures a < 0 ==> q * b - b < a <= q * b <= 0
  {
    if a >= 0 then
      EuclidBounds(a, b);
      a / b
    else
      EuclidBounds(-a, b);
      -((-a) / b)
  }

  /** Swift's `a % b` on `Int`, for a positive divisor: the sign follows the dividend. */
  function Rem(a: int, b: int): (r: int)
    requires b > 0
    ensures Div(a, b) * b + r == a
    ensures a >= 0 ==> 0 <= r < b
    ensures a < 0 ==> -b < r <= 0
  {
    if a >= 0 then
      EuclidBounds(a, b);
      a % b
    else
      EuclidBounds(-a, b);
      -((-a) % b)
  }

  /** Dafny's division and remainder of a natural number by a positive one. */
  lemma EuclidBounds(a: int, b: int)
    requires a >= 0 && b > 0
    ensures 0 <= (a / b) * b <= a < (a / b) * b + b
    ensures (-(a / b)) * b == -((a / b) * b)
    ensures a == (a / b) * b + a % b && 0 <= a % b < b
  {
    assert a == (a / b) * b + a % b;
  }

  /** On non-negative operands Swift's truncating operators agree with Dafny's. */
  lemma NonNegativeAgrees(a: int, b: int)
    requires a >= 0 && b > 0
    ensures Div(a, b) == a / b && Rem(a, b) == a % b
  {
  }

  /** Swift's `Int(round(x))`: the nearest integer, halves rounded away from zero. */
  function Round(x: real): (n: int)
    ensures x >= 0.0 ==> n as real - 0.5 <= x < n as real + 0.5
    ensures x < 0.0 ==> n as real - 0.5 < x <= n as real + 0.5
    ensures n >= 0 <==> x > -0.5
  {
    if x >= 0.0 then (x + 0.5).Floor else -((-x + 0.5).Floor)
  }

}

=== FILE: time_label.dfy ===
/**
 * The handle labels of the trimmer: `secondsToHoursMinutesSeconds` splits a
 * time in seconds into hour, minute and second texts, and `updateHandleLabel`
 * joins them as `h:m:s` or `m:s`. A reader of such clock texts is defined
 * independently so that the formatter can be checked against it.
 */
module TimeLabel {

  import opened Wrappers
  import opened SwiftInt
  import opened Decimal

  /** The three texts returned by `secondsToHoursMinutesSeconds`. */
  datatype Fields = Fields(hours: string, minutes: string, seconds: string)

  /** Minutes get a `0` prefix only when they are 1 to 9; seconds whenever they are below 10. */
  function FieldsOf(n: int): Fields {
    var minutes := Div(Rem(n, 3600), 60);
    var seconds := Rem(Rem(n, 3600), 60);
    Fields(
      IntString(Div(n, 3600)),
      if minutes < 10 && minutes > 0 then "0" + IntString(minutes) else IntString(minutes),
      if seconds < 10 then "0" + IntString(seconds) else IntString(seconds))
  }

  /** The formatter works on the time rounded to whole seconds; it never yields `nil`. */
  function SecondsToHoursMinutesSeconds(seconds: real): Fields {
    FieldsOf(Round(seconds))
  }

  /** The label text: the hours part is shown only when the unrounded time is at least an hour. */
  function LabelText(seconds: real): string {
    Join(SecondsToHoursMinutesSeconds(seconds), seconds >= 3600.0)
  }

  /** `h:m:s` with the hours part, `m:s` without. */
  function Join(f: Fields, withHours: bool): string {
    if withHours then f.hours + ":" + f.minutes + ":" + f.seconds
    else f.minutes + ":" + f.seconds
  }

  // ---------------------------------------------------------------------------
  // A reader for clock texts

  /** Position of the last occurrence of `c` in `s`. */
  function LastIndex(s: string, c: char): (r: Option<nat>)
    ensures r.Some? ==> r.value < |s| && s[r.value] == c
    decreases |s|
  {
    if |s| == 0 then None
    else if s[|s| - 1] == c then Some(|s| - 1)
    else LastIndex(s[..|s| - 1], c)
  }

  /** A character that does not occur has no last occurrence. */
  lemma {:induction false} LastIndexAbsent(s: string, c: char)
    requires c !in s
    ensures LastIndex(s, c) == None
    decreases |s|
  {
    if |s| > 0 {
      assert s[|s| - 1] in s;
      LastIndexAbsent(s[..|s| - 1], c);
    }
  }

  /** One more base-sixty place: the low field must be below 60. */
  function AppendField(high: Option<nat>, low: Option<nat>): Option<nat> {
    if high.Some? && low.Some? && low.value < 60 then Some(high.value * 60 + low.value) else None
  }

  /**
   * Reads `a:b:...:z` as a number in base sixty: every field a digit string,
   * every field after the first below 60.
   */
  function ParseClock(s: string): Option<nat>
    decreases |s|
  {
    match LastIndex(s, ':')
    case None => ParseDigits(s)
    case Some(i) => AppendField(ParseClock(s[..i]), ParseDigits(s[i + 1..]))
  }

  /** The last colon of `p:t` is the one added, when `t` has none. */
  lemma {:induction false} LastIndexOfJoin(p: string, t: string)
    requires ':' !in t
    ensures LastIndex(p + ":" + t, ':') == Some(|p|)
    decreases |t|
  {
    var s := p + ":" + t;
    if |t| > 0 {
      assert t[|t| - 1] in t;
      assert s[..|s| - 1] == p + ":" + t[..|t| - 1];
      LastIndexOfJoin(p, t[..|t| - 1]);
    }
  }

  lemma SlicesOfJoin(p: string, t: string)
    ensures (p + ":" + t)[..|p|] == p && (p + ":" + t)[|p| + 1..] == t
  {
  }

  /** Appending a field to a clock text shifts its value by one base-sixty place. */
  lemma ParseClockJoin(p: string, t: string)
    requires ':' !in t
    ensures ParseClock(p + ":" + t) == AppendField(ParseClock(p), ParseDigits(t))
  {
    LastIndexOfJoin(p, t);
    SlicesOfJoin(p, t);
  }

  // ---------------------------------------------------------------------------
  // Properties of the formatter

  lemma TwoDigitField(v: nat)
    requires v < 60
    ensures IsDigits(if v < 10 then "0" + IntString(v) else IntString(v))
    ensures ParseDigits(if v < 10 then "0" + IntString(v) else IntString(v)) == Some(v)
    ensures |if v < 10 then "0" + IntString(v) else IntString(v)| == 2
  {
    ParseDigitsOfDigits(v);
    if v < 10 {
      LeadingZero(Digits(v));
    }
  }

  /**
   * The three fields are digit strings reading as hours, minutes below 60 and
   * seconds below 60 that add up to `n` seconds.
   */
  predicate Decomposes(f: Fields, n: nat) {
    && IsDigits(f.hours) && IsDigits(f.minutes) && IsDigits(f.seconds)
    && var h := ParseDigits(f.hours).value;
       var m := ParseDigits(f.minutes).value;
       var s := ParseDigits(f.seconds).value;
       h * 3600 + m * 60 + s == n && m < 60 && s < 60
  }

  /**
   * For a non-negative rounded count the three fields are digit strings that
   * read back as hours, minutes below 60 and seconds below 60 summing to the
   * count; seconds always have two digits, minutes two digits unless zero,
   * in which case they are the single `0`.
   */
  lemma {:induction false} FieldsRoundTrip(n: nat)
    ensures Decomposes(FieldsOf(n), n)
    ensures |FieldsOf(n).seconds| == 2
    ensures FieldsOf(n).minutes == "0" || |FieldsOf(n).minutes| == 2
    ensures FieldsOf(n).minutes == "0" <==> n % 3600 < 60
  {
    var f := FieldsOf(n);
    NonNegativeAgrees(n, 3600);
    NonNegativeAgrees(n % 3600, 60);
    var h, m, s := n / 3600, n % 3600 / 60, n % 3600 % 60;
    assert n == h * 3600 + m * 60 + s;
    ParseDigitsOfDigits(h);
    ParseDigitsOfDigits(m);
    TwoDigitField(s);
    if m == 0 {
      assert f.minutes == "0";
    } else if m < 10 {
      LeadingZero(Digits(m));
      assert f.minutes == "0" + Digits(m);
    } else {
      assert f.minutes == Digits(m);
    }
  }

  /** The hours text is never padded: it starts with `0` exactly when the count is under an hour. */
  lemma HoursUnpadded(n: nat)
    ensures FieldsOf(n).hours[0] == '0' <==> n < 3600
  {
    NonNegativeAgrees(n, 3600);
    assert FieldsOf(n).hours == Digits(n / 3600);
  }

  /**
   * Reading a label back gives the rounded time when the hours part is shown,
   * and the rounded time modulo one hour otherwise.
   */
  lemma LabelReadsBack(x: real)
    requires x >= 0.0
    ensures ParseClock(LabelText(x)) == Some(if x >= 3600.0 then Round(x) else Round(x) % 3600)
  {
    JoinReadsBack(Round(x), x >= 3600.0);
  }

  lemma JoinReadsBack(n: nat, withHours: bool)
    ensures ParseClock(Join(FieldsOf(n), withHours)) == Some(if withHours then n else n % 3600)
  {
    FieldsRoundTrip(n);
    ReadDecomposed(FieldsOf(n), n);
  }

  lemma ReadDecomposed(f: Fields, n: nat)
    requires Decomposes(f, n)
    ensures ParseClock(Join(f, true)) == Some(n)
    ensures ParseClock(Join(f, false)) == Some(n % 3600)
  {
    var h, m, s := ParseDigits(f.hours).value, ParseDigits(f.minutes).value, ParseDigits(f.seconds).value;
    JoinedFieldsRead(f, h, m, s);
    HourRemainder(n, h, m * 60 + s);
  }

  lemma HourRemainder(n: nat, h: nat, r: nat)
    requires n == h * 3600 + r && r < 3600
    ensures n % 3600 == r
  {
  }

  lemma JoinedFieldsRead(f: Fields, h: nat, m: nat, s: nat)
    requires ParseDigits(f.hours) == Some(h)
    requires ParseDigits(f.minutes) == Some(m) && m < 60
    requires ParseDigits(f.seconds) == Some(s) && s < 60
    ensures ParseClock(Join(f, false)) == Some(m * 60 + s)
    ensures ParseClock(Join(f, true)) == Some(h * 3600 + m * 60 + s)
  {
    DigitsHaveNoColon(f.hours);
    DigitsHaveNoColon(f.minutes);
    DigitsHaveNoColon(f.seconds);
    TwoFieldsRead(f.minutes, f.seconds, m, s);
    ThreeFieldsRead(f.hours, f.minutes, f.seconds, h, m, s);
  }

  lemma ThreeFieldsRead(a: string, b: string, c: string, x: nat, y: nat, z: nat)
    requires ':' !in a && ':' !in b && ':' !in c
    requires ParseDigits(a) == Some(x) && ParseDigits(b) == Some(y) && ParseDigits(c) == Some(z)
    requires y < 60 && z < 60
    ensures ParseClock(a + ":" + b + ":" + c) == Some(x * 3600 + y * 60 + z)
  {
    TwoFieldsRead(a, b, x, y);
    ThirdFieldRead(a + ":" + b, c, x * 60 + y, z);
    HoursPlace(x, y, z);
  }

  lemma HoursPlace(h: nat, m: nat, s: nat)
    ensures (h * 60 + m) * 60 + s == h * 3600 + m * 60 + s
  {
  }

  lemma ThirdFieldRead(a: string, b: string, x: nat, y: nat)
    requires ':' !in b
    requires ParseClock(a) == Some(x) && ParseDigits(b) == Some(y) && y < 60
    ensures ParseClock(a + ":" + b) == Some(x * 60 + y)
  {
    ParseClockJoin(a, b);
    assert AppendField(Some(x), Some(y)) == Some(x * 60 + y);
  }

  lemma TwoFieldsRead(a: string, b: string, x: nat, y: nat)
    requires ':' !in a && ':' !in b
    requires ParseDigits(a) == Some(x) && ParseDigits(b) == Some(y) && y < 60
    ensures ParseClock(a + ":" + b) == Some(x * 60 + y)
  {
    ParseClockJoin(a, b);
    LastIndexAbsent(a, ':');
  }

  /**
   * Outside the half second below the hour the label reads back as the
   * rounded time: nothing of the count is lost.
   */
  lemma LabelRoundTrip(x: real)
    requires 0.0 <= x < 3599.5 || x >= 3600.0
    ensures ParseClock(LabelText(x)) == Some(Round(x))
  {
    LabelReadsBack(x);
    if x < 3600.0 {
      assert Round(x) < 3600;
      HourRemainder(Round(x), 0, Round(x));
    }
  }

  /**
   * Between 3599.5 and 3600 seconds the count rounds to a full hour, but the
   * hours part is hidden because the unrounded time is below 3600: the label
   * shows `0:00`.
   */
  lemma NearHourShowsZero(x: real)
    requires 3599.5 <= x < 3600.0
    ensures LabelText(x) == "0:00"
  {
    assert Round(x) == 3600;
  }

  /** The label has two colons exactly when the unrounded time is at least an hour, otherwise one. */
  lemma LabelShape(x: real)
    requires x >= 0.0
    ensures multiset(LabelText(x))[':'] == if x >= 3600.0 then 2 else 1
  {
    FieldsRoundTrip(Round(x));
    JoinColons(FieldsOf(Round(x)), x >= 3600.0);
  }

  lemma JoinColons(f: Fields, withHours: bool)
    requires IsDigits(f.hours) && IsDigits(f.minutes) && IsDigits(f.seconds)
    ensures multiset(Join(f, withHours))[':'] == if withHours then 2 else 1
  {
    DigitsHaveNoColon(f.hours);
    DigitsHaveNoColon(f.minutes);
    DigitsHaveNoColon(f.seconds);
    assert multiset(f.hours)[':'] == 0;
    assert multiset(f.minutes)[':'] == 0;
    assert multiset(f.seconds)[':'] == 0;
  }

  /** The labels produced for some times under an hour: minutes are not padded when zero. */
  lemma ShortLabelExamples()
    ensures LabelText(0.0) == "0:00"
    ensures LabelText(61.0) == "01:01"
    ensures LabelText(600.0) == "10:00"
  {
    assert FieldsOf(0) == Fields("0", "0", "00");
    assert FieldsOf(61) == Fields("0", "01", "01");
    assert FieldsOf(600) == Fields("0", "10", "00");
  }

  /** The labels produced for 3600 and 3661 seconds: the hours part has no `0` prefix. */
  lemma HourLabelExamples()
    ensures LabelText(3600.0) == "1:0:00"
    ensures LabelText(3661.0) == "1:01:01"
  {
    assert FieldsOf(3600) == Fields("1", "0", "00");
    assert FieldsOf(3661) == Fields("1", "01", "01");
  }

}

=== FILE: trimmer.dfy ===
/**
 * The state the trimmer view keeps between gestures and the transitions its
 * pan handler and reset apply to it.
 *
 * The view's surroundings are an `Environment`: its width, the filmstrip's
 * scroll offset and content width, the position bar's width, the asset and
 * `minDuration`, the filmstrip's pixel-to-time and time-to-pixel
 * conversions, which belong to a collaborator and are taken as given
 * functions, and whether a delegate is set. Frame values are derived from
 * the constraint constants after layout.
 */
module Trimmer {

  import opened Wrappers
  import opened Handles
  import opened TimeLabel

  datatype Side = Left | Right

  /** The recognizer states a pan gesture reports, with the cumulative translation while it changes. */
  datatype Phase = Possible | Began | Changed(translation: real) | Ended | Cancelled | Failed

  /** A pan on one of the handles, or a reset of the handles (explicit, or because the asset changed). */
  datatype Event = Pan(side: Side, phase: Phase) | ResetHandles

  datatype Environment = Environment(
    width: real,                       // frame.width of the trimmer view
    contentOffset: real,               // horizontal scroll offset of the filmstrip
    contentWidth: real,                // width of the filmstrip's content
    barWidth: real,                    // width of the position bar
    asset: Option<Asset>,
    minDuration: real,
    timeAt: real -> Option<real>,      // getTime(from:)
    positionAt: real -> Option<real>,  // getPosition(from:)
    hasDelegate: bool)                 // delegate != nil

  /** A loaded asset has a positive duration, so the minimum gap is defined. */
  predicate ValidEnvironment(env: Environment) {
    env.asset.Some? ==> env.asset.value.duration > 0.0
  }

  function MinGap(env: Environment): real
    requires ValidEnvironment(env)
  {
    MinimumDistance(env.asset, env.minDuration, env.contentWidth)
  }

  /**
   * What the view remembers: constraint constants, drag baselines, label
   * visibility, and for each label the time it was last given; its text is
   * `LabelText` of that time.
   */
  datatype State = State(
    leftConstant: real,       // leftConstraint.constant
    rightConstant: real,      // rightConstraint.constant
    currentLeft: real,        // currentLeftConstraint
    currentRight: real,       // currentRightConstraint
    positionConstant: real,   // positionConstraint.constant
    leftLabelHidden: bool,
    leftLineHidden: bool,
    rightLabelHidden: bool,
    rightLineHidden: bool,
    leftLabelTime: Option<real>,    // the time whose text the left label shows
    rightLabelTime: Option<real>)   // the time whose text the right label shows

  /** All constants zero, labels and their lines hidden, no label text yet. */
  const Initial: State := State(0.0, 0.0, 0.0, 0.0, 0.0, true, true, true, true, None, None)

  function LeftX(s: State): real {
    s.leftConstant
  }

  function RightX(s: State, env: Environment): real {
    RightHandleX(env.width, s.rightConstant)
  }

  /**
   * `startTime`: the time under the left handle's right edge. The filmstrip
   * starts one handle width into the view, so the content point
   * `LeftX + contentOffset` is drawn there.
   */
  function StartTime(s: State, env: Environment): Option<real> {
    env.timeAt(LeftX(s) + env.contentOffset)
  }

  /**
   * `endTime`: the time under the right handle's left edge, the content
   * point `RightX + contentOffset - HandleWidth`.
   */
  function EndTime(s: State, env: Environment): Option<real> {
    env.timeAt(RightX(s, env) + env.contentOffset - HandleWidth)
  }

  predicate TimesDefined(s: State, env: Environment) {
    StartTime(s, env).Some? && EndTime(s, env).Some?
  }

  /** `seek(to:)`: move the position bar to `time`, or leave it if the time has no position. */
  function Seek(s: State, env: Environment, time: real): (r: State)
    ensures r.(positionConstant := s.positionConstant) == s
    ensures env.positionAt(time).None? ==> r == s
    ensures env.positionAt(time).Some? ==>
      r.positionConstant == SeekPosition(env.positionAt(time).value, env.contentOffset, LeftX(s), RightX(s, env), env.barWidth)
    ensures env.positionAt(time).Some? && MaxPosition(LeftX(s), RightX(s, env), env.barWidth) >= 0.0
            ==> 0.0 <= r.positionConstant <= MaxPosition(LeftX(s), RightX(s, env), env.barWidth)
  {
    match env.positionAt(time)
    case None => s
    case Some(p) => s.(positionConstant := SeekPosition(p, env.contentOffset, LeftX(s), RightX(s, env), env.barWidth))
  }

  /** The constraint update of a changing pan on `side`. */
  function Drag(s: State, side: Side, translation: real, env: Environment): State
    requires ValidEnvironment(env)
  {
    match side
    case Left => s.(leftConstant := UpdateLeftConstraint(s.currentLeft, translation, RightX(s, env), MinGap(env)))
    case Right => s.(rightConstant := UpdateRightConstraint(s.currentRight, translation, env.width, LeftX(s), MinGap(env)))
  }

  /** Reading `startTime` writes it into the left label when it is defined. */
  function ReadStart(s: State, env: Environment): (r: State)
    ensures r.(leftLabelTime := s.leftLabelTime) == s
    ensures r.leftLabelTime == if StartTime(s, env).Some? then StartTime(s, env) else s.leftLabelTime
  {
    match StartTime(s, env)
    case None => s
    case Some(_) => s.(leftLabelTime := StartTime(s, env))
  }

  /** Reading `endTime` writes it into the right label when it is defined. */
  function ReadEnd(s: State, env: Environment): (r: State)
    ensures r.(rightLabelTime := s.rightLabelTime) == s
    ensures r.rightLabelTime == if EndTime(s, env).Some? then EndTime(s, env) else s.rightLabelTime
  {
    match EndTime(s, env)
    case None => s
    case Some(_) => s.(rightLabelTime := EndTime(s, env))
  }

  /**
   * `delegate?.didChangeHandleBarPosition(StartTime: startTime!, EndTime: endTime!)`:
   * the arguments, and with them both label refreshes, are evaluated only
   * when a delegate is set.
   */
  function Notify(s: State, env: Environment): (r: State)
    ensures r.(leftLabelTime := s.leftLabelTime, rightLabelTime := s.rightLabelTime) == s
    ensures env.hasDelegate ==>
      && r.leftLabelTime == (if StartTime(s, env).Some? then StartTime(s, env) else s.leftLabelTime)
      && r.rightLabelTime == (if EndTime(s, env).Some? then EndTime(s, env) else s.rightLabelTime)
    ensures env.hasDelegate && TimesDefined(s, env) ==>
      r.leftLabelTime == StartTime(s, env) && r.rightLabelTime == EndTime(s, env)
    ensures !env.hasDelegate ==> r == s
  {
    if env.hasDelegate then ReadEnd(ReadStart(s, env), env) else s
  }

  /** The text of the left label, `nil` until a time has been shown. */
  function LeftLabelText(s: State): Option<string> {
    match s.leftLabelTime
    case None => None
    case Some(t) => Some(LabelText(t))
  }

  /** The text of the right label, `nil` until a time has been shown. */
  function RightLabelText(s: State): Option<string> {
    match s.rightLabelTime
    case None => None
    case Some(t) => Some(LabelText(t))
  }

  /**
   * When a delegate is set, the handler force-unwraps `startTime` and
   * `endTime` after a pan changes and when it finishes. Only a changing pan
   * computes the minimum gap, which needs a positive asset duration.
   */
  predicate StepDefined(s: State, e: Event, env: Environment) {
    match e
    case Pan(side, Changed(t)) =>
      ValidEnvironment(env) && (env.hasDelegate ==> TimesDefined(Drag(s, side, t, env), env))
    case Pan(_, Ended) => env.hasDelegate ==> TimesDefined(s, env)
    case Pan(_, Cancelled) => env.hasDelegate ==> TimesDefined(s, env)
    case Pan(_, Failed) => env.hasDelegate ==> TimesDefined(s, env)
    case _ => true
  }

  /** The left constant is never negative and the right one never positive, nor are their baselines. */
  predicate Bounded(s: State) {
    s.leftConstant >= 0.0 && s.rightConstant <= 0.0 && s.currentLeft >= 0.0 && s.currentRight <= 0.0
  }

  /** The handler's `.began` branch: capture the baseline and show that handle's label and line. */
  function Begin(s: State, side: Side): State {
    match side
    case Left => s.(leftLabelHidden := false, leftLineHidden := false, currentLeft := s.leftConstant)
    case Right => s.(rightLabelHidden := false, rightLineHidden := false, currentRight := s.rightConstant)
  }

  /** The handler's `.changed` branch: move the handle, then follow it. */
  function Change(s: State, side: Side, t: real, env: Environment): (r: State)
    requires ValidEnvironment(env)
    ensures var d := Drag(s, side, t, env);
      r.(positionConstant := d.positionConstant, leftLabelTime := d.leftLabelTime, rightLabelTime := d.rightLabelTime) == d
  {
    Follow(Drag(s, side, t, env), side, env)
  }

  /** A left pan whose start time is defined seeks it; every other pan reads the end time and seeks it. */
  predicate SeeksStart(d: State, side: Side, env: Environment) {
    side == Left && StartTime(d, env).Some?
  }

  /**
   * What the `.changed` branch does once the handle has moved: read
   * `startTime`; a left pan seeks it when it is defined, and otherwise
   * `endTime` is read and, when defined, sought. The delegate call reads
   * both times again.
   */
  function Follow(d: State, side: Side, env: Environment): (r: State)
    ensures r.(positionConstant := d.positionConstant, leftLabelTime := d.leftLabelTime, rightLabelTime := d.rightLabelTime) == d
    ensures SeeksStart(d, side, env) ==> r.positionConstant == Seek(d, env, StartTime(d, env).value).positionConstant
    ensures !SeeksStart(d, side, env) && EndTime(d, env).Some? ==> r.positionConstant == Seek(d, env, EndTime(d, env).value).positionConstant
    ensures !SeeksStart(d, side, env) && EndTime(d, env).None? ==> r.positionConstant == d.positionConstant
    ensures r.leftLabelTime == if StartTime(d, env).Some? then StartTime(d, env) else d.leftLabelTime
    ensures env.hasDelegate ==> r.rightLabelTime == if EndTime(d, env).Some? then EndTime(d, env) else d.rightLabelTime
    ensures !env.hasDelegate ==>
      r.rightLabelTime == if SeeksStart(d, side, env) || EndTime(d, env).None? then d.rightLabelTime else EndTime(d, env)
  {
    var r := ReadStart(d, env);
    assert StartTime(r, env) == StartTime(d, env) && EndTime(r, env) == EndTime(d, env);
    if SeeksStart(d, side, env) then
      var sought := Seek(r, env, StartTime(d, env).value);
      assert StartTime(sought, env) == StartTime(d, env) && EndTime(sought, env) == EndTime(d, env);
      Notify(sought, env)
    else
      var e := ReadEnd(r, env);
      assert StartTime(e, env) == StartTime(d, env) && EndTime(e, env) == EndTime(d, env);
      match EndTime(d, env)
      case None => Notify(e, env)
      case Some(time) =>
        var sought := Seek(e, env, time);
        assert StartTime(sought, env) == StartTime(d, env) && EndTime(sought, env) == EndTime(d, env);
        Notify(sought, env)
  }

  /**
   * Following a moved handle depends on the handles alone: states that
   * differ only in the bar and the labels end up differing at most there,
   * and with a delegate and both times defined only in the bar.
   */
  lemma FollowForgetsBarAndLabels(a: State, b: State, side: Side, env: Environment)
    requires a.(positionConstant := b.positionConstant, leftLabelTime := b.leftLabelTime, rightLabelTime := b.rightLabelTime) == b
    ensures var ra, rb := Follow(a, side, env), Follow(b, side, env);
      && ra.(positionConstant := rb.positionConstant, leftLabelTime := rb.leftLabelTime, rightLabelTime := rb.rightLabelTime) == rb
      && (env.hasDelegate && TimesDefined(b, env) ==> ra.(positionConstant := rb.positionConstant) == rb)
  {
    assert StartTime(a, env) == StartTime(b, env) && EndTime(a, env) == EndTime(b, env);
  }

  /** The handler's `.cancelled, .ended, .failed` branch: hide every label view, then notify. */
  function Finish(s: State, env: Environment): (r: State)
    ensures r.(leftLabelTime := s.leftLabelTime, rightLabelTime := s.rightLabelTime)
            == s.(leftLabelHidden := true, leftLineHidden := true, rightLabelHidden := true, rightLineHidden := true)
    ensures env.hasDelegate && TimesDefined(s, env) ==>
      r.leftLabelTime == StartTime(s, env) && r.rightLabelTime == EndTime(s, env)
    ensures !env.hasDelegate ==> r.leftLabelTime == s.leftLabelTime && r.rightLabelTime == s.rightLabelTime
  {
    Notify(s.(leftLabelHidden := true, leftLineHidden := true, rightLabelHidden := true, rightLineHidden := true), env)
  }

  /** `handlePanGesture` and `resetHandleViewPosition`. */
  function Step(s: State, e: Event, env: Environment): (r: State)
    requires StepDefined(s, e, env)
    ensures Bounded(s) ==> Bounded(r)
  {
    match e
    case ResetHandles => s.(leftConstant := 0.0, rightConstant := 0.0)
    case Pan(side, phase) =>
      match phase
      case Possible => s
      case Began => Begin(s, side)
      case Changed(t) => Change(s, side, t, env)
      case Ended => Finish(s, env)
      case Cancelled => Finish(s, env)
      case Failed => Finish(s, env)
  }

  /** The events can be applied in order without reaching a forced unwrap of a missing time. */
  predicate RunDefined(s: State, events: seq<Event>, env: Environment)
    decreases |events|
  {
    |events| == 0 || (StepDefined(s, events[0], env) && RunDefined(Step(s, events[0], env), events[1..], env))
  }

  function Run(s: State, events: seq<Event>, env: Environment): State
    requires RunDefined(s, events, env)
    decreases |events|
  {
    if |events| == 0 then s else Run(Step(s, events[0], env), events[1..], env)
  }

  // ---------------------------------------------------------------------------
  // What each event changes

  /** Reset zeroes both constants and changes nothing else. */
  lemma ResetOnlyZeroesConstants(s: State, env: Environment)
    ensures var r := Step(s, ResetHandles, env);
      && r.leftConstant == 0.0 && r.rightConstant == 0.0
      && r.(leftConstant := s.leftConstant, rightConstant := s.rightConstant) == s
      && Step(r, ResetHandles, env) == r
  {
  }

  /**
   * A pan beginning on a handle copies only that handle's constant into its
   * baseline and shows only that handle's label and line.
   */
  lemma BeganCapturesBaseline(s: State, side: Side, env: Environment)
    ensures var r := Step(s, Pan(side, Began), env);
      && r.leftConstant == s.leftConstant && r.rightConstant == s.rightConstant
      && r.positionConstant == s.positionConstant
      && r.leftLabelTime == s.leftLabelTime && r.rightLabelTime == s.rightLabelTime
      && (side == Left ==>
            && r.currentLeft == s.leftConstant && r.currentRight == s.currentRight
            && !r.leftLabelHidden && !r.leftLineHidden
            && r.rightLabelHidden == s.rightLabelHidden && r.rightLineHidden == s.rightLineHidden)
      && (side == Right ==>
            && r.currentRight == s.rightConstant && r.currentLeft == s.currentLeft
            && !r.rightLabelHidden && !r.rightLineHidden
            && r.leftLabelHidden == s.leftLabelHidden && r.leftLineHidden == s.leftLineHidden)
  {
  }

  /**
   * A changing pan on a handle moves only that handle's constant, to its
   * baseline plus the translation clamped by the other handle. The bar is
   * sought to the start time on a left pan that has one, and otherwise to
   * the end time when there is one. With a delegate both labels show the
   * new times; without one, the left label shows the start time when it is
   * defined, and the right label the end time when it was read and defined.
   */
  lemma ChangedMovesOneHandle(s: State, side: Side, t: real, env: Environment)
    requires StepDefined(s, Pan(side, Changed(t)), env)
    ensures var r := Step(s, Pan(side, Changed(t)), env);
      var d := Drag(s, side, t, env);
      var seekStart := side == Left && StartTime(r, env).Some?;
      && r.currentLeft == s.currentLeft && r.currentRight == s.currentRight
      && r.leftLabelHidden == s.leftLabelHidden && r.leftLineHidden == s.leftLineHidden
      && r.rightLabelHidden == s.rightLabelHidden && r.rightLineHidden == s.rightLineHidden
      && (seekStart ==> r.positionConstant == Seek(d, env, StartTime(r, env).value).positionConstant)
      && (!seekStart && EndTime(r, env).Some? ==> r.positionConstant == Seek(d, env, EndTime(r, env).value).positionConstant)
      && (!seekStart && EndTime(r, env).None? ==> r.positionConstant == s.positionConstant)
      && (env.hasDelegate ==> r.leftLabelTime == StartTime(r, env) && r.rightLabelTime == EndTime(r, env))
      && (!env.hasDelegate ==>
            && r.leftLabelTime == (if StartTime(r, env).Some? then StartTime(r, env) else s.leftLabelTime)
            && r.rightLabelTime == (if seekStart || EndTime(r, env).None? then s.rightLabelTime else EndTime(r, env)))
      && (side == Left ==>
            && r.rightConstant == s.rightConstant
            && r.leftConstant == UpdateLeftConstraint(s.currentLeft, t, RightX(s, env), MinGap(env)))
      && (side == Right ==>
            && r.leftConstant == s.leftConstant
            && r.rightConstant == UpdateRightConstraint(s.currentRight, t, env.width, LeftX(s), MinGap(env)))
  {
    var r, d := Step(s, Pan(side, Changed(t)), env), Drag(s, side, t, env);
    assert r == Follow(d, side, env);
    assert StartTime(r, env) == StartTime(d, env) && EndTime(r, env) == EndTime(d, env);
  }

  /**
   * A pan that ends, is cancelled or fails hides all four label views and
   * moves nothing; the labels show the current times with a delegate and
   * keep their texts without one.
   */
  lemma FinishedHidesLabels(s: State, side: Side, phase: Phase, env: Environment)
    requires phase == Ended || phase == Cancelled || phase == Failed
    requires StepDefined(s, Pan(side, phase), env)
    ensures var r := Step(s, Pan(side, phase), env);
      && r.leftLabelHidden && r.leftLineHidden && r.rightLabelHidden && r.rightLineHidden
      && r.leftConstant == s.leftConstant && r.rightConstant == s.rightConstant
      && r.currentLeft == s.currentLeft && r.currentRight == s.currentRight
      && r.positionConstant == s.positionConstant
      && (env.hasDelegate ==>
            && r.leftLabelTime == StartTime(s, env) && r.rightLabelTime == EndTime(s, env)
            && LeftLabelText(r) == Some(LabelText(StartTime(s, env).value))
            && RightLabelText(r) == Some(LabelText(EndTime(s, env).value)))
      && (!env.hasDelegate ==> r.leftLabelTime == s.leftLabelTime && r.rightLabelTime == s.rightLabelTime)
  {
  }

  /**
   * The translation a pan reports is cumulative: after two changes only the
   * second one decides where the handles are, and with a delegate also the
   * labels; the second change is safe whenever it would have been safe on
   * its own.
   */
  lemma DragIsAbsolute(s: State, side: Side, t1: real, t2: real, env: Environment)
    requires StepDefined(s, Pan(side, Changed(t1)), env)
    requires StepDefined(s, Pan(side, Changed(t2)), env)
    ensures StepDefined(Step(s, Pan(side, Changed(t1)), env), Pan(side, Changed(t2)), env)
    ensures var s1 := Step(s, Pan(side, Changed(t1)), env);
      var once := Step(s, Pan(side, Changed(t2)), env);
      var twice := Step(s1, Pan(side, Changed(t2)), env);
      && twice.(positionConstant := once.positionConstant,
                leftLabelTime := once.leftLabelTime, rightLabelTime := once.rightLabelTime) == once
      && (env.hasDelegate ==> twice.(positionConstant := once.positionConstant) == once)
    ensures var s1 := Step(s, Pan(side, Changed(t1)), env);
      var d := Drag(s, side, t2, env);
      var once := Step(s, Pan(side, Changed(t2)), env);
      var twice := Step(s1, Pan(side, Changed(t2)), env);
      var sought := if SeeksStart(d, side, env) then StartTime(d, env) else EndTime(d, env);
      && (sought.Some? && env.positionAt(sought.value).Some? ==> twice.positionConstant == once.positionConstant)
      && (StartTime(d, env).Some? ==> twice.leftLabelTime == once.leftLabelTime)
      && ((env.hasDelegate || !SeeksStart(d, side, env)) && EndTime(d, env).Some? ==> twice.rightLabelTime == once.rightLabelTime)
  {
    var s1 := Step(s, Pan(side, Changed(t1)), env);
    DragAfterChange(s, side, t1, t2, env);
    var d1, d := Drag(s1, side, t2, env), Drag(s, side, t2, env);
    assert StartTime(d1, env) == StartTime(d, env) && EndTime(d1, env) == EndTime(d, env);
    FollowForgetsBarAndLabels(d1, d, side, env);
    assert Step(s1, Pan(side, Changed(t2)), env) == Follow(d1, side, env);
    assert Step(s, Pan(side, Changed(t2)), env) == Follow(d, side, env);
  }

  /** Dragging again after a change starts from the same baseline and the same other handle. */
  lemma DragAfterChange(s: State, side: Side, t1: real, t2: real, env: Environment)
    requires StepDefined(s, Pan(side, Changed(t1)), env)
    ensures var s1 := Step(s, Pan(side, Changed(t1)), env);
      Drag(s1, side, t2, env)
      == Drag(s, side, t2, env).(positionConstant := s1.positionConstant,
                                 leftLabelTime := s1.leftLabelTime, rightLabelTime := s1.rightLabelTime)
  {
    ChangedMovesOneHandle(s, side, t1, env);
  }

  /** Seeking the same time twice with unchanged handles gives the same bar position. */
  lemma SeekIdempotent(s: State, env: Environment, time: real)
    ensures Seek(Seek(s, env, time), env, time) == Seek(s, env, time)
  {
  }

  // ---------------------------------------------------------------------------
  // Invariants over runs

  /** The handles are at least a handle width plus the minimum gap apart. */
  predicate Separated(s: State, env: Environment)
    requires ValidEnvironment(env)
  {
    LeftX(s) + HandleWidth + MinGap(env) <= RightX(s, env)
  }

  /** The view is wide enough for both handles and the minimum gap between them. */
  predicate Roomy(env: Environment)
    requires ValidEnvironment(env)
  {
    2.0 * HandleWidth + MinGap(env) <= env.width
  }

  /** Every event keeps the handles separated in a view that has room for it. */
  lemma StepKeepsSeparation(s: State, e: Event, env: Environment)
    requires ValidEnvironment(env) && StepDefined(s, e, env) && Roomy(env)
    requires Bounded(s) && Separated(s, env)
    ensures Separated(Step(s, e, env), env)
  {
    match e
    case Pan(Left, Changed(t)) =>
      LeftKeepsGap(s.currentLeft, t, RightX(s, env), MinGap(env));
    case Pan(Right, Changed(t)) =>
      RightKeepsGap(s.currentRight, t, env.width, LeftX(s), MinGap(env));
    case _ =>
  }

  /** From a bounded state, every run of events keeps the constants in range. */
  lemma {:induction false} RunStaysBounded(s: State, events: seq<Event>, env: Environment)
    requires RunDefined(s, events, env) && Bounded(s)
    ensures Bounded(Run(s, events, env))
    decreases |events|
  {
    if |events| > 0 {
      RunStaysBounded(Step(s, events[0], env), events[1..], env);
    }
  }

  /**
   * From a bounded, separated state in a roomy view, every run of events
   * keeps the handles at least the minimum gap apart.
   */
  lemma {:induction false} RunStaysSeparated(s: State, events: seq<Event>, env: Environment)
    requires RunDefined(s, events, env) && ValidEnvironment(env) && Roomy(env)
    requires Bounded(s) && Separated(s, env)
    ensures Bounded(Run(s, events, env)) && Separated(Run(s, events, env), env)
    decreases |events|
  {
    if |events| > 0 {
      StepKeepsSeparation(s, events[0], env);
      RunStaysSeparated(Step(s, events[0], env), events[1..], env);
    }
  }

  /** The initial state satisfies both invariants when the view is roomy. */
  lemma InitialIsBoundedAndSeparated(env: Environment)
    requires ValidEnvironment(env) && Roomy(env)
    ensures Bounded(Initial) && Separated(Initial, env)
  {
  }

  /**
   * With a filmstrip whose times are linear in position, the handles'
   * separation means the selected range lasts at least `minDuration`.
   */
  lemma SeparatedSelectsMinDuration(s: State, env: Environment)
    requires ValidEnvironment(env) && env.asset.Some? && env.contentWidth > 0.0
    requires forall x :: env.timeAt(x) == Some(x * env.asset.value.duration / env.contentWidth)
    requires Separated(s, env)
    ensures EndTime(s, env).value - StartTime(s, env).value >= env.minDuration
  {
    var d, w := env.asset.value.duration, env.contentWidth;
    var span := RightX(s, env) - HandleWidth - LeftX(s);
    assert EndTime(s, env).value - StartTime(s, env).value == span * d / w;
    assert MinGap(env) * d == env.minDuration * w;
    assert span >= MinGap(env);
    assert span * d >= MinGap(env) * d;
  }

}

=== FILE: wrappers.dfy ===
/** The optional value the Swift code expresses with `T?`. */
module Wrappers {

  datatype Option<+T> = None | Some(value: T)

}
